=== FILE: README.md ===
# ofxBulletCustomShape in Dafny

A model of `ofxBulletCustomShape`, the openFrameworks wrapper around Bullet
that composes several collision shapes into one compound rigid body. Callers
accumulate sub-shapes with `addShape` (an explicit Bullet shape and its local
centroid) and `addMesh` (a triangle mesh turned into a convex hull, or into a
compound by the convex decomposer). They then call `add()`, which averages the
local centroids, attaches every sub-shape to the compound shape relative to
that average, and registers a rigid body with the world.

The model is functional. A `CustomShape.Builder` value holds the class's
fields: the `inited` and `added` flags, the two parallel lists `shapes` and
`centroids`, the aggregate centroid and the compound shape's children. Each
member function of the class is a pure transition on that value. Coordinates
are `real`s. Bullet objects are plain values that record only what this class
puts into them. Bullet's hull builder and its convex decomposer are the two
function fields of an `Engine` record, which the caller passes in.

Files:

- `vectors.dfy` (`Vectors`): 3-vectors, sums and means, and the lemma that a sequence centred on its mean sums to zero.
- `mesh.dfy` (`Meshes`): the mesh, the triangle re-winding of the hull branch (a recursive definition plus the source's loop) and the normal flip it causes.
- `hull.dfy` (`HullCentring`): centring of the hull vertices, as a function and as the source's two loops.
- `custom_shape.dfy` (`CustomShape`): the builder state and `init`, `create`, `addShape`, `addMesh`, `add`, `getCentroid` and `getNumChildShapes`.
- `sessions.dfy` (`Sessions`): runs of `addShape`/`addMesh` calls, and the child count that `add()` produces from them.
- `cube.dfy` and `cube_scenario.dfy` (`CubeExample`, `CubeScenario`): the unit cube added as a centred hull.

One might expect `add()` to set the centroid to the mean of the local
centroids. The code computes (prior centroid + sum of the local
centroids) / n instead. The prior centroid is the `init()` argument, or the
origin that `create()` sets. The model follows the code. The two agree when
the prior centroid is the origin (`CustomShape.AddCentroidIsMean`).

## Model

| member | source | states |
|---|---|---|
| CustomShape.New | src/shapes/ofxBulletCustomShape.cpp:14-16 | A new builder has no flags set, no entries, no registered body and its centroid at the origin |
| CustomShape.Init | src/shapes/ofxBulletCustomShape.cpp:25-29 | init() adopts the given compound shape and centroid and sets the inited flag; no other field changes |
| CustomShape.Create | src/shapes/ofxBulletCustomShape.cpp:45-54 | create() records world, mass and start transform and sets created. Without a prior init() it starts an empty compound and puts the centroid at the origin; after init() it keeps both. Flags and entries are untouched |
| CustomShape.CreateCentroid | src/shapes/ofxBulletCustomShape.cpp:45-54 | The centroid that add() starts from is the init() argument if init() ran, and the origin otherwise |
| CustomShape.AddShape | src/shapes/ofxBulletCustomShape.cpp:57-65 | Returns true exactly when add() has not run. Then it appends one (shape, offset) pair to both lists and changes nothing else. Otherwise it is refused as "after add" and the builder is unchanged. Both lists stay parallel |
| CustomShape.AddMesh | src/shapes/ofxBulletCustomShape.cpp:68-148 | Returns true exactly for a triangle mesh before add(). A non-triangle mesh is refused for topology even after add(), and nothing changes on refusal. Decomposition mode appends one compound of all decomposer pieces at offset zero. Hull mode appends one convex hull: each point is a hull vertex minus the offset. The offset is zero (points = hull) with centring off; with centring on it is the mean vertex and the points sum to zero |
| Meshes.Rewound | src/shapes/ofxBulletCustomShape.cpp:96-110 | For a well-indexed mesh (index count a multiple of 3, every index in range) there are \|idx\|/3 triangles. Triangle k is (v[idx[3k+2]], v[idx[3k+1]], v[idx[3k]]), each vertex scaled component-wise |
| Meshes.BuildTriangleMesh | src/shapes/ofxBulletCustomShape.cpp:94-110 | The source's loop (counter stepping by 3) emits, for triple k, the mesh's own scaled triangle k with its vertex order reversed. The result equals Rewound |
| Meshes.RewoundIsFlipped | src/shapes/ofxBulletCustomShape.cpp:96-110 | Each re-wound triangle and the mesh's listed triangle (scaled) are each other's reversal, and there are three indices per triangle |
| Meshes.FlipNegatesNormal | src/shapes/ofxBulletCustomShape.cpp:97-109 | Handing the vertices on in order (2, 1, 0) turns the face normal around |
| HullCentring.CentreHull | src/shapes/ofxBulletCustomShape.cpp:124-139 | Every emitted point is the hull vertex minus the offset. With centring off the offset is zero and the points are the hull. With centring on, \|hull\| × offset = the vertex sum (the offset is the mean), and the emitted points sum to zero and have mean zero |
| HullCentring.CentreHullLoops | src/shapes/ofxBulletCustomShape.cpp:124-139 | The source's summing loop, division, reset and emitting loop compute the same offset and points as CentreHull |
| CustomShape.Add | src/shapes/ofxBulletCustomShape.cpp:151-173 | add() sets added. With no entries the centroid stays the same; otherwise n × new centroid = prior centroid + sum of local centroids. Entry i is appended as a child after the existing ones, in order, with identity rotation and translation centroids[i] − centroid. One body is registered with the start transform, the mass, the setProperties arguments (0.4, 0.75) in call order and the setDamping argument 0.25. No field other than added, centroid, compound and the registered bodies changes |
| CustomShape.AddCentroidIsMean | src/shapes/ofxBulletCustomShape.cpp:156-160 | When the prior centroid is the origin and there is at least one entry, add() sets the centroid to the unweighted mean of the local centroids |
| CustomShape.AddTranslationsSumToZero | src/shapes/ofxBulletCustomShape.cpp:156-167 | When the prior centroid is the origin, the translations of the children add() attaches sum to the zero vector |
| CustomShape.AddTwiceReattaches | src/shapes/ofxBulletCustomShape.cpp:151-172 | add() has no guard: a second call attaches every entry again and registers a second body |
| CustomShape.GetCentroid | src/shapes/ofxBulletCustomShape.cpp:176-178 | Returns the stored aggregate centroid, whatever the flags. What that value is at each stage is stated by CreateCentroid (before add()) and by Add and AddCentroidIsMean (after it) |
| CustomShape.GetNumChildShapes | src/shapes/ofxBulletCustomShape.cpp:181-186 | 0 while added is false; afterwards, the compound shape's child count |
| Sessions.Run | src/shapes/ofxBulletCustomShape.cpp:57-148 | A run of addShape/addMesh calls changes only the two entry lists. On a sealed builder any calls may be given, since they are refused before the mesh is read. Each call that returns true adds exactly one entry. No more calls are accepted than were made |
| Sessions.RunOpen | src/shapes/ofxBulletCustomShape.cpp:57-148 | Before add(), exactly the addShape calls and the addMesh calls on triangle meshes are accepted, and earlier entries stay in place |
| Sessions.RunSealed | src/shapes/ofxBulletCustomShape.cpp:57-76 | After add(), every addShape and addMesh call is refused and the builder does not change, whatever the mesh (even one whose indices are out of range) |
| Sessions.ChildCountAfterAdd | src/shapes/ofxBulletCustomShape.cpp:151-186 | For create() then any calls AddMesh admits (a well-indexed mesh in hull mode, and a non-empty hull when centring), then add(): before add() getNumChildShapes is 0; after it, the count equals the number of calls that returned true. Later calls change nothing |
| CubeScenario.CubeScenario | src/shapes/ofxBulletCustomShape.cpp:124-167 | A mesh whose hull is the unit cube's corners is added in hull mode with centring on, then add() runs. The result is one child, the centroid (0.5, 0.5, 0.5), the corners re-centred on the origin, and the child placed at zero translation |

## Left out

- Bullet's hull builder (`btShapeHull::buildHull` over a `btConvexTriangleMeshShape`, with that shape's default margin) and the convex decomposer (`ofxBulletConvexDecomposer::decompose` and `constructCompoundShape`) are foreign code. They are the `Engine` record's function fields. The hull vertices are whatever `buildHull` returns for the re-wound triangles. The decomposed compound is recorded as the list of pieces that `decompose` returns.
- Rigid-body construction (`ofGetBtRigidBodyFromCollisionShape`), `_world->addRigidBody` and Bullet's treatment of mass: a `Body` value is appended to `registered`. That a mass of zero or less gives a static body is Bullet's business and is not modelled.
- `setProperties(.4, .75)`: the meaning of the two arguments is defined in `ofxBulletBaseShape`, which is not part of this model. The body records them by position, as `PropertyArgs(0.4, 0.75)`, without saying which is friction and which is restitution.
- The two overloads of `create` that take an `ofVec3f` position, with or without an `ofQuaternion`, only build a `btTransform`. `Create` takes the transform directly.
- The initial values of the `_bInited`, `_bCreated` and `_bAdded` flags are set in `ofxBulletBaseShape`, which is not part of this model. `New` takes them as false. `_centroid` starts at the origin, as an `ofVec3f` does.
- Memory management (the intermediate hull and triangle-mesh objects, and the shape leaked by a repeated `create`), `setData`, `draw()` and the error log. A refusal carries its reason (`NotTriangles`, `AfterAdd`) in place of the logged message.
- IEEE single-precision rounding: coordinates and the divisions by `(float)` counts are exact `real` arithmetic.
- CustomShape.AddMesh: requires a well-indexed mesh in hull mode, because the source indexes past the end of the index or vertex list otherwise. With centring on it also requires a non-empty hull, because the source then divides zero by zero and records a NaN offset. With centring off, an empty hull is allowed: the NaN is discarded by the reset on line 135.
- CustomShape.Add: requires `create()` to have run, because the source dereferences the world pointer that only `create()` sets. A repeated `add()` is modelled with no guard: it re-averages the centroid, attaches every entry again and registers a second body (see `AddTwiceReattaches`). A `Body` does not record its collision shape. The source hands it the builder's `_shape` pointer, which is the builder's `compound` only until a later `create()` without `init()`, or a later `init()`, repoints `_shape`; the model does not record which compound an earlier body holds. The model keeps the one value passed to `setDamping(.25)`; how `ofxBulletBaseShape` applies it to linear and angular damping is not modelled.
- Sessions.ChildCountAfterAdd: inherits AddMesh's requires on the open builder, through `AllAdmissible`, for every call before add(). A centred hull-mode call whose hull is empty, which the source accepts with a NaN offset, and a hull-mode call with a malformed index list are not covered by the lemma.
- CubeScenario.CubeScenario: stated for any well-indexed triangle mesh whose hull the engine reports as the eight corners of the unit cube, because hull construction is foreign. `CubeExample.Cube` is the twelve-triangle cube mesh, and `CubeExample.CubeWellIndexed` shows it qualifies on the mesh side.

=== FILE: cube.dfy ===
/** A worked example: the unit cube added as a convex hull. */
module CubeExample {
  import opened Vectors
  import opened Meshes

  /** The unit cube [0,1]^3 as a triangle mesh: 8 corners, 12 triangles. */
  function Cube(): Mesh {
    Mesh(Triangles, Corners(),
         [0, 2, 1,  1, 2, 3,  4, 5, 6,  5, 7, 6,
          0, 1, 4,  1, 5, 4,  2, 6, 3,  3, 6, 7,
          0, 4, 2,  2, 4, 6,  1, 3, 5,  3, 7, 5])
  }

  function Corners(): seq<Vec3> {
    [Vec3(0.0, 0.0, 0.0), Vec3(1.0, 0.0, 0.0), Vec3(0.0, 1.0, 0.0), Vec3(1.0, 1.0, 0.0),
     Vec3(0.0, 0.0, 1.0), Vec3(1.0, 0.0, 1.0), Vec3(0.0, 1.0, 1.0), Vec3(1.0, 1.0, 1.0)]
  }

  const Unit: Vec3 := Vec3(1.0, 1.0, 1.0)

  /** The cube mesh is a well-indexed triangle list. */
  lemma CubeWellIndexed()
    ensures Cube().mode == Triangles && WellIndexed(Cube())
  {
    var m := Cube();
    assert forall i :: 0 <= i < |m.indices| ==> m.indices[i] < 8 by {
      forall i | 0 <= i < |m.indices| ensures m.indices[i] < 8 {
        assert m.indices[i] in {0, 1, 2, 3, 4, 5, 6, 7};
      }
    }
  }

  lemma SumCorners(s: seq<Vec3>)
    requires s == Corners()
    ensures Sum(s) == Vec3(4.0, 4.0, 4.0)
  {
    SumOfFour(s[..4]);
    SumOfFour(s[4..]);
    SumConcat(s[..4], s[4..]);
    assert s[..4] + s[4..] == s;
  }

  lemma SumOfFour(s: seq<Vec3>)
    requires |s| == 4
    ensures Sum(s) == Plus(Plus(Plus(s[0], s[1]), s[2]), s[3])
  {
    assert s[..0] == [];
    SumPrefixStep(s, 0);
    SumPrefixStep(s, 1);
    SumPrefixStep(s, 2);
    SumPrefixStep(s, 3);
    assert s[..4] == s;
  }
}

=== FILE: cube_scenario.dfy ===
/** The unit cube added to a fresh builder in hull mode with centring on. */
module CubeScenario {
  import opened Vectors
  import opened Meshes
  import opened HullCentring
  import opened CustomShape
  import opened CubeExample

  /** `m` is a triangle mesh for which the hull builder returns the unit
      cube's eight corners; CubeExample.Cube is such a mesh. */
  predicate HullIsCorners(engine: Engine, m: Mesh) {
    m.mode == Triangles && WellIndexed(m) && HullOf(engine, m, Unit) == Corners()
  }

  /** Adding the cube in hull mode with centring on records one convex hull
      whose offset is the cube's centre. */
  lemma CubeHullStep(engine: Engine, m: Mesh, b: Builder)
    requires HullIsCorners(engine, m) && !b.added && Valid(b)
    ensures var step := AddMesh(b, engine, m, Unit, true, true);
            && step.Accepted?
            && |step.next.shapes| == |b.shapes| + 1
            && LastOffset(step.next) == Vec3(0.5, 0.5, 0.5)
            && LastShape(step.next) == ConvexHull(ShiftAll(Corners(), Vec3(0.5, 0.5, 0.5)))
  {
    CentreCorners(HullOf(engine, m, Unit));
  }

  /** Centring the cube's corners puts the offset at the cube's centre. */
  lemma CentreCorners(hull: seq<Vec3>)
    requires hull == Corners()
    ensures CentreHull(hull, true).offset == Vec3(0.5, 0.5, 0.5)
  {
    SumCorners(hull);
    assert ScaleBy(8.0, CentreHull(hull, true).offset) == Vec3(4.0, 4.0, 4.0);
  }

  /** add() on a builder holding exactly one entry, made by create() alone:
      the single child sits at the origin and the centroid is that entry's
      local centroid. */
  lemma AddSingleEntry(b: Builder, shape: Shape, c: Vec3)
    requires b.created && b.centroid == Zero && b.compound.children == []
    requires b.shapes == [shape] && b.centroids == [c]
    ensures GetNumChildShapes(Add(b)) == 1
    ensures GetCentroid(Add(b)) == c
    ensures Add(b).compound.children[0] == Child(Transform(IdentityRotation, Zero), shape)
  {
    SumAppend([], c);
    assert [] + [c] == b.centroids;
  }

  /** One cube added in hull mode with centring on to a builder made by
      create(), then add(): one child, the centroid at the cube's centre, the
      hull re-centred on the origin and the child placed with no translation. */
  lemma CubeScenario(engine: Engine, m: Mesh, world: nat, start: Transform, mass: real)
    requires HullIsCorners(engine, m)
    ensures var step := AddMesh(Create(New(), world, start, mass), engine, m, Unit, true, true);
            && step.Accepted?
            && var done := Add(step.next);
            && GetNumChildShapes(done) == 1
            && GetCentroid(done) == Vec3(0.5, 0.5, 0.5)
            && done.compound.children[0] ==
                 Child(Transform(IdentityRotation, Zero),
                       ConvexHull(ShiftAll(Corners(), Vec3(0.5, 0.5, 0.5))))
  {
    var b := Create(New(), world, start, mass);
    assert b.shapes == [] && b.centroids == [] && !b.added && b.centroid == Zero && b.compound.children == [];
    CubeHullStep(engine, m, b);
    var step := AddMesh(b, engine, m, Unit, true, true);
    assert step.next.shapes == [ConvexHull(ShiftAll(Corners(), Vec3(0.5, 0.5, 0.5)))];
    assert step.next.centroids == [Vec3(0.5, 0.5, 0.5)];
    AddSingleEntry(step.next, ConvexHull(ShiftAll(Corners(), Vec3(0.5, 0.5, 0.5))), Vec3(0.5, 0.5, 0.5));
  }
}

=== FILE: custom_shape.dfy ===
/** The compound-shape builder ofxBulletCustomShape: an immutable state value
    and one pure transition function per member function of the class.
    Bullet objects (collision shapes, the world, rigid bodies) are values that
    record only what this class puts into them. */
module CustomShape {
  import opened Vectors
  import opened Meshes
  import opened HullCentring

  /** One convex piece returned by the convex decomposer: its centroid and its
      hull points. */
  datatype Piece = Piece(centroid: Vec3, points: seq<Vec3>)

  /** A collision-shape handle. */
  datatype Shape =
    | Explicit(id: nat)                         // a btCollisionShape* handed in by the caller
    | DecomposedCompound(pieces: seq<Piece>)    // constructCompoundShape over the decomposer's pieces
    | ConvexHull(points: seq<Vec3>)             // a btConvexHullShape and the points added to it

  datatype Quat = Quat(x: real, y: real, z: real, w: real)

  const IdentityRotation: Quat := Quat(0.0, 0.0, 0.0, 1.0)

  datatype Transform = Transform(rotation: Quat, origin: Vec3)

  /** A child of a btCompoundShape: its local transform and its shape. */
  datatype Child = Child(transform: Transform, shape: Shape)

  datatype Compound = Compound(children: seq<Child>)

  /** The two arguments of the base class's setProperties, in call order.
      Which of them is friction and which restitution is decided by
      ofxBulletBaseShape, which is not part of this model. */
  datatype PropertyArgs = PropertyArgs(first: real, second: real)

  /** The fixed values add() hands to setProperties and to the
      one-argument setDamping. How setDamping's single value is applied to
      linear and angular damping is decided by ofxBulletBaseShape too. */
  const Properties: PropertyArgs := PropertyArgs(0.4, 0.75)
  const Damping: real := 0.25

  /** A rigid body as registered with the world, with the arguments add()
      passed for it. Its collision shape is not recorded: add() hands it the
      builder's `_shape` pointer, which is the builder's `compound` until a
      later create() without init(), or a later init(), repoints it. */
  datatype Body = Body(
    start: Transform, mass: real,
    properties: PropertyArgs, dampingArg: real)

  /** The builder's fields: the two flags that gate its calls, the compound
      shape it fills, the aggregate centroid, the two parallel lists of
      accumulated shapes and local centroids, what create() records, and the
      bodies it has handed to the world's addRigidBody. */
  datatype Builder = Builder(
    inited: bool, created: bool, added: bool,
    compound: Compound, centroid: Vec3,
    shapes: seq<Shape>, centroids: seq<Vec3>,
    world: nat, mass: real, startTrans: Transform,
    registered: seq<Body>)

  /** The two accumulation lists stay parallel. */
  predicate Valid(b: Builder) {
    |b.shapes| == |b.centroids|
  }

  /** `b'` differs from `b` at most in its two accumulation lists. */
  predicate OnlyEntriesChanged(b: Builder, b': Builder) {
    b'.(shapes := b.shapes, centroids := b.centroids) == b
  }

  /** `b'` is `b` with exactly one more (shape, local centroid) entry at the end. */
  predicate AppendsOne(b: Builder, b': Builder) {
    && OnlyEntriesChanged(b, b')
    && |b'.shapes| == |b.shapes| + 1 && b'.shapes[..|b.shapes|] == b.shapes
    && |b'.centroids| == |b.centroids| + 1 && b'.centroids[..|b.centroids|] == b.centroids
  }

  function LastShape(b: Builder): Shape
    requires |b.shapes| > 0
  {
    b.shapes[|b.shapes| - 1]
  }

  function LastOffset(b: Builder): Vec3
    requires |b.centroids| > 0
  {
    b.centroids[|b.centroids| - 1]
  }

  /** A freshly constructed builder: no flags set, nothing accumulated, the
      centroid at the origin. */
  function New(): (b: Builder)
    ensures Valid(b) && !b.inited && !b.created && !b.added
    ensures b.shapes == [] && b.centroid == Zero && b.registered == []
  {
    Builder(false, false, false, Compound([]), Zero, [], [],
            0, 0.0, Transform(IdentityRotation, Zero), [])
  }

  /** init(): adopt an already built compound shape and its centroid. */
  function Init(b: Builder, shape: Compound, centroid: Vec3): (r: Builder)
    ensures r.inited && r.compound == shape && r.centroid == centroid
    ensures r.(inited := b.inited, compound := b.compound, centroid := b.centroid) == b
  {
    b.(inited := true, compound := shape, centroid := centroid)
  }

  /** create(world, transform, mass): record the world, mass and start
      transform; unless init() ran, start from an empty compound shape with
      the centroid at the origin. */
  function Create(b: Builder, world: nat, start: Transform, mass: real): (r: Builder)
    ensures r.created && r.world == world && r.startTrans == start && r.mass == mass
    ensures b.inited ==> r.compound == b.compound && r.centroid == b.centroid
    ensures !b.inited ==> r.compound.children == [] && r.centroid == Zero
    ensures r.inited == b.inited && r.added == b.added
    ensures r.shapes == b.shapes && r.centroids == b.centroids && r.registered == b.registered
  {
    var r := b.(world := world, mass := mass, startTrans := start, created := true);
    if b.inited then r else r.(compound := Compound([]), centroid := Zero)
  }

  /** Why addShape or addMesh returned false. */
  datatype Refusal = NotTriangles | AfterAdd

  /** The boolean result of addShape/addMesh together with the builder after
      the call. */
  datatype Step = Accepted(next: Builder) | Refused(reason: Refusal, next: Builder)

  /** addShape(shape, localCentroid). */
  function AddShape(b: Builder, shape: Shape, offset: Vec3): (r: Step)
    ensures r.Accepted? <==> !b.added
    ensures r.Refused? ==> r == Refused(AfterAdd, b)
    ensures r.Accepted? ==> AppendsOne(b, r.next)
                            && LastShape(r.next) == shape && LastOffset(r.next) == offset
    ensures Valid(b) ==> Valid(r.next)
  {
    if b.added then Refused(AfterAdd, b)
    else Accepted(b.(shapes := b.shapes + [shape], centroids := b.centroids + [offset]))
  }

  /** The Bullet routines addMesh calls and this model does not contain:
      btShapeHull's hull over a triangle mesh, and the convex decomposer. */
  datatype Engine = Engine(
    buildHull: seq<Triangle> -> seq<Vec3>,
    decompose: (Mesh, Vec3) -> seq<Piece>)

  /** The vertices Bullet's hull builder returns for the re-wound mesh. */
  function HullOf(engine: Engine, m: Mesh, scale: Vec3): seq<Vec3>
    requires WellIndexed(m)
  {
    engine.buildHull(Rewound(m, scale))
  }

  /** What an addMesh call that gets past both guards needs in order to be
      defined: in hull mode the index loop stays in bounds, and when centring
      the hull has a vertex to divide by. */
  predicate MeshAdmissible(engine: Engine, m: Mesh, scale: Vec3, useHull: bool, centre: bool) {
    m.mode == Triangles && useHull ==>
      WellIndexed(m) && (centre ==> |HullOf(engine, m, scale)| > 0)
  }

  /** addMesh(mesh, localScaling, useConvexHull, centerVerticesOnCentroid).
      The mesh mode is checked before the added flag. Decomposition mode adds
      one compound shape at offset zero, however many pieces the decomposer
      returns; hull mode adds one convex hull whose offset is the hull's mean
      vertex, or zero when centring is off. */
  function AddMesh(b: Builder, engine: Engine, m: Mesh, scale: Vec3, useHull: bool, centre: bool): (r: Step)
    requires !b.added ==> MeshAdmissible(engine, m, scale, useHull, centre)
    ensures r.Accepted? <==> m.mode == Triangles && !b.added
    ensures m.mode != Triangles ==> r == Refused(NotTriangles, b)
    ensures m.mode == Triangles && b.added ==> r == Refused(AfterAdd, b)
    ensures r.Accepted? ==> AppendsOne(b, r.next)
    ensures r.Accepted? && !useHull ==>
              LastShape(r.next) == DecomposedCompound(engine.decompose(m, scale))
              && LastOffset(r.next) == Zero
    ensures r.Accepted? && useHull ==>
              var hull := HullOf(engine, m, scale);
              && LastShape(r.next).ConvexHull?
              && var points := LastShape(r.next).points;
              && |points| == |hull|
              && (forall i :: 0 <= i < |hull| ==> points[i] == Minus(hull[i], LastOffset(r.next)))
              && (!centre ==> LastOffset(r.next) == Zero && points == hull)
              && (centre ==> ScaleBy(|hull| as real, LastOffset(r.next)) == Sum(hull)
                             && Sum(points) == Zero)
    ensures Valid(b) ==> Valid(r.next)
  {
    if m.mode != Triangles then Refused(NotTriangles, b)
    else if b.added then Refused(AfterAdd, b)
    else if !useHull then
      var compound := DecomposedCompound(engine.decompose(m, scale));
      Accepted(b.(shapes := b.shapes + [compound], centroids := b.centroids + [Zero]))
    else
      var c := CentreHull(HullOf(engine, m, scale), centre);
      Accepted(b.(shapes := b.shapes + [ConvexHull(c.points)], centroids := b.centroids + [c.offset]))
  }

  /** The children add() attaches: shape `i` at identity rotation, translated
      by its local centroid minus the aggregate centroid. */
  function Placements(shapes: seq<Shape>, offsets: seq<Vec3>, centroid: Vec3): (r: seq<Child>)
    requires |shapes| == |offsets|
    ensures |r| == |shapes|
    ensures forall i :: 0 <= i < |r| ==>
              r[i].shape == shapes[i] && r[i].transform.rotation == IdentityRotation
              && Plus(r[i].transform.origin, centroid) == offsets[i]
  {
    seq(|shapes|, i requires 0 <= i < |shapes| =>
      Child(Transform(IdentityRotation, Minus(offsets[i], centroid)), shapes[i]))
  }

  /** The translations of a sequence of children. */
  function Origins(children: seq<Child>): (r: seq<Vec3>)
    ensures |r| == |children|
    ensures forall i :: 0 <= i < |r| ==> r[i] == children[i].transform.origin
  {
    seq(|children|, i requires 0 <= i < |children| => children[i].transform.origin)
  }

  /** add(): set the added flag; average the prior centroid together with
      every local centroid over the entry count (keeping the prior centroid
      when there are no entries); attach every entry to the compound shape
      relative to that centroid; make a body and register it with the world
      with the fixed surface properties and damping. There is no guard
      against a second call, and none is modelled. */
  function Add(b: Builder): (r: Builder)
    requires b.created && Valid(b)
    ensures r.added && Valid(r)
    ensures |b.centroids| == 0 ==> r.centroid == b.centroid
    ensures |b.centroids| > 0 ==>
              ScaleBy(|b.centroids| as real, r.centroid) == Plus(b.centroid, Sum(b.centroids))
    ensures |r.compound.children| == |b.compound.children| + |b.shapes|
    ensures r.compound.children[..|b.compound.children|] == b.compound.children
    ensures forall i :: 0 <= i < |b.shapes| ==>
              var child := r.compound.children[|b.compound.children| + i];
              child.shape == b.shapes[i] && child.transform.rotation == IdentityRotation
              && Plus(child.transform.origin, r.centroid) == b.centroids[i]
    ensures |r.registered| == |b.registered| + 1 && r.registered[..|b.registered|] == b.registered
    ensures var body := r.registered[|b.registered|];
            && body.start == b.startTrans && body.mass == b.mass
            && body.properties == PropertyArgs(0.4, 0.75)
            && body.dampingArg == 0.25
    ensures r.(added := b.added, centroid := b.centroid, compound := b.compound,
               registered := b.registered) == b
  {
    var n := |b.centroids|;
    var total := Plus(b.centroid, Sum(b.centroids));
    var centroid := if n > 0 then DivBy(total, n as real) else b.centroid;
    var compound := Compound(b.compound.children + Placements(b.shapes, b.centroids, centroid));
    var body := Body(b.startTrans, b.mass, Properties, Damping);
    b.(added := true, centroid := centroid, compound := compound,
       registered := b.registered + [body])
  }

  /** getCentroid(): the stored aggregate centroid, whatever the flags. */
  function GetCentroid(b: Builder): (c: Vec3)
    ensures c == b.centroid
  {
    b.centroid
  }

  /** getNumChildShapes(): zero until add() has run, then the compound
      shape's child count. */
  function GetNumChildShapes(b: Builder): (n: nat)
    ensures !b.added ==> n == 0
    ensures b.added ==> n == |b.compound.children|
  {
    if b.added then |b.compound.children| else 0
  }

  /** The centroid add() starts from: the init() argument when init() ran,
      otherwise the origin that create() resets it to. */
  lemma CreateCentroid(b: Builder, shape: Compound, c: Vec3, world: nat, start: Transform, mass: real)
    ensures GetCentroid(Create(Init(b, shape, c), world, start, mass)) == c
    ensures !b.inited ==> GetCentroid(Create(b, world, start, mass)) == Zero
  {
  }

  /** When the prior centroid is the origin, add() sets the centroid to the
      unweighted mean of the local centroids. */
  lemma AddCentroidIsMean(b: Builder)
    requires b.created && Valid(b) && b.centroid == Zero && |b.centroids| > 0
    ensures GetCentroid(Add(b)) == Mean(b.centroids)
  {
    var r := Add(b);
    var n := |b.centroids| as real;
    assert ScaleBy(n, r.centroid) == Sum(b.centroids);
    assert ScaleBy(n, Mean(b.centroids)) == Sum(b.centroids);
  }

  /** When the prior centroid is the origin, the translations add() gives the
      new children sum to the zero vector: the compound is centred on its
      centroid. */
  lemma AddTranslationsSumToZero(b: Builder)
    requires b.created && Valid(b) && b.centroid == Zero
    ensures Sum(Origins(Add(b).compound.children[|b.compound.children|..])) == Zero
  {
    var r := Add(b);
    var added := r.compound.children[|b.compound.children|..];
    if |b.centroids| == 0 {
      assert Origins(added) == [];
    } else {
      AddCentroidIsMean(b);
      var m := Mean(b.centroids);
      assert Origins(added) == ShiftAll(b.centroids, m);
      CentredSumIsZero(b.centroids);
    }
  }

  /** add() has no guard: a second call attaches every entry a second time
      and registers a second body. */
  lemma AddTwiceReattaches(b: Builder)
    requires b.created && Valid(b)
    ensures GetNumChildShapes(Add(Add(b))) == |b.compound.children| + 2 * |b.shapes|
    ensures |Add(Add(b)).registered| == |b.registered| + 2
  {
  }
}

=== FILE: hull.dfy ===
/** Centring of the hull vertices in the hull branch of
    ofxBulletCustomShape::addMesh. The vertices themselves come from Bullet's
    btShapeHull and are taken here as an arbitrary input sequence. */
module HullCentring {
  import opened Vectors

  /** The offset recorded for the new sub-shape and the points given to its
      btConvexHullShape. */
  datatype Centred = Centred(offset: Vec3, points: seq<Vec3>)

  /** With centring on, the offset is the mean hull vertex and the points are
      the hull moved so that their mean is the origin; with centring off, the
      offset is zero and the points are the hull vertices unchanged. The mean
      divides by the vertex count, so centring needs at least one vertex. */
  function CentreHull(hull: seq<Vec3>, centre: bool): (r: Centred)
    requires centre ==> |hull| > 0
    ensures |r.points| == |hull|
    ensures forall i :: 0 <= i < |hull| ==> r.points[i] == Minus(hull[i], r.offset)
    ensures !centre ==> r.offset == Zero && r.points == hull
    ensures centre ==> ScaleBy(|hull| as real, r.offset) == Sum(hull)
    ensures centre ==> Sum(r.points) == Zero && Mean(r.points) == Zero
  {
    var offset := if centre then Mean(hull) else Zero;
    var points := ShiftAll(hull, offset);
    if centre then
      CentredSumIsZero(hull);
      Centred(offset, points)
    else
      assert points == hull;
      Centred(offset, points)
  }

  /** The two loops of the source: one accumulating the vertex sum, then the
      division, which matters only when centring, then one emitting each vertex
      minus the offset. */
  method CentreHullLoops(hull: seq<Vec3>, centre: bool) returns (offset: Vec3, points: seq<Vec3>)
    requires centre ==> |hull| > 0
    ensures Centred(offset, points) == CentreHull(hull, centre)
  {
    var centroid := Zero;
    var i := 0;
    while i < |hull|
      invariant 0 <= i <= |hull|
      invariant centroid == Sum(hull[..i])
    {
      SumPrefixStep(hull, i);
      centroid := Plus(centroid, hull[i]);
      i := i + 1;
    }
    assert hull[..|hull|] == hull;
    if centre {
      centroid := DivBy(centroid, |hull| as real);
    } else {
      centroid := Zero;
    }
    points := [];
    i := 0;
    while i < |hull|
      invariant 0 <= i <= |hull|
      invariant |points| == i
      invariant forall k :: 0 <= k < i ==> points[k] == Minus(hull[k], centroid)
    {
      points := points + [Minus(hull[i], centroid)];
      i := i + 1;
    }
    offset := centroid;
  }
}

=== FILE: mesh.dfy ===
/** Indexed triangle meshes (ofMesh) and the triangle re-winding that
    ofxBulletCustomShape::addMesh performs before handing triangles to the
    hull builder. */
module Meshes {
  import opened Vectors

  /** openFrameworks' ofPrimitiveMode; only `Triangles` is accepted by addMesh. */
  datatype PrimitiveMode =
    | Triangles | TriangleStrip | TriangleFan
    | Lines | LineStrip | LineLoop | Points

  /** The parts of an ofMesh that addMesh reads: its mode, vertex positions and
      index list. */
  datatype Mesh = Mesh(mode: PrimitiveMode, vertices: seq<Vec3>, indices: seq<nat>)

  datatype Triangle = Triangle(a: Vec3, b: Vec3, c: Vec3)

  /** The index list splits into whole triples and every index names a vertex:
      what the hull-mode loop needs to stay in bounds. */
  predicate WellIndexed(m: Mesh) {
    && |m.indices| % 3 == 0
    && forall i :: 0 <= i < |m.indices| ==> m.indices[i] < |m.vertices|
  }

  /** The same triangle traversed the other way round. */
  function Flip(t: Triangle): Triangle {
    Triangle(t.c, t.b, t.a)
  }

  /** The (unnormalised) face normal by the right-hand rule. */
  function Normal(t: Triangle): Vec3 {
    Cross(Minus(t.b, t.a), Minus(t.c, t.a))
  }

  /** Triangle `k` of the mesh as the index list lists it, each vertex scaled
      component-wise by `s`. This is the reference the re-wound triangles are
      compared against. */
  function ScaledTriangle(m: Mesh, s: Vec3, k: nat): Triangle
    requires WellIndexed(m) && 3 * k + 2 < |m.indices|
  {
    Triangle(Times(m.vertices[m.indices[3 * k]], s),
             Times(m.vertices[m.indices[3 * k + 1]], s),
             Times(m.vertices[m.indices[3 * k + 2]], s))
  }

  /** The mesh whose index list is the first `n` triples of `m`'s. */
  function Prefix(m: Mesh, n: nat): (p: Mesh)
    requires WellIndexed(m) && 3 * n <= |m.indices|
    ensures WellIndexed(p) && |p.indices| == 3 * n
  {
    Mesh(m.mode, m.vertices, m.indices[..3 * n])
  }

  /** The triangles the hull-mode loop adds to its btTriangleMesh, built one
      triple at a time from the back of the index list: each triple
      (i, i+1, i+2) is emitted as (v[idx[i+2]], v[idx[i+1]], v[idx[i]]), every
      vertex scaled by `s`. */
  function Rewound(m: Mesh, s: Vec3): (r: seq<Triangle>)
    requires WellIndexed(m)
    ensures |r| == |m.indices| / 3
    ensures forall k :: 0 <= k < |r| ==>
              r[k] == Triangle(Times(m.vertices[m.indices[3 * k + 2]], s),
                               Times(m.vertices[m.indices[3 * k + 1]], s),
                               Times(m.vertices[m.indices[3 * k]], s))
    decreases |m.indices|
  {
    if |m.indices| == 0 then []
    else
      var n := |m.indices| / 3 - 1;
      var i := 3 * n;
      var idx := m.indices;
      Rewound(Prefix(m, n), s)
        + [Triangle(Times(m.vertices[idx[i + 2]], s),
                    Times(m.vertices[idx[i + 1]], s),
                    Times(m.vertices[idx[i]], s))]
  }

  /** Every re-wound triangle is the mesh's own triangle traversed backwards. */
  lemma RewoundIsFlipped(m: Mesh, s: Vec3)
    requires WellIndexed(m)
    ensures |Rewound(m, s)| * 3 == |m.indices|
    ensures forall k :: 0 <= k < |Rewound(m, s)| ==>
              Rewound(m, s)[k] == Flip(ScaledTriangle(m, s, k))
              && Flip(Rewound(m, s)[k]) == ScaledTriangle(m, s, k)
  {
  }

  /** Reversing the winding turns the face normal around. */
  lemma FlipNegatesNormal(t: Triangle)
    ensures Normal(Flip(t)) == Neg(Normal(t))
  {
  }

  /** The hull-mode loop of addMesh as written: a counter stepping by three
      over the index list, appending one re-wound, scaled triangle per step. */
  method BuildTriangleMesh(m: Mesh, s: Vec3) returns (trimesh: seq<Triangle>)
    requires WellIndexed(m)
    ensures |trimesh| * 3 == |m.indices|
    ensures forall k :: 0 <= k < |trimesh| ==> trimesh[k] == Flip(ScaledTriangle(m, s, k))
    ensures trimesh == Rewound(m, s)
  {
    trimesh := [];
    var i := 0;
    while i < |m.indices|
      invariant i % 3 == 0 && i <= |m.indices|
      invariant |trimesh| * 3 == i
      invariant forall k :: 0 <= k < |trimesh| ==> trimesh[k] == Flip(ScaledTriangle(m, s, k))
    {
      var index0 := m.indices[i + 2];
      var index1 := m.indices[i + 1];
      var index2 := m.indices[i];
      var vertex0 := Times(m.vertices[index0], s);
      var vertex1 := Times(m.vertices[index1], s);
      var vertex2 := Times(m.vertices[index2], s);
      trimesh := trimesh + [Triangle(vertex0, vertex1, vertex2)];
      i := i + 3;
    }
    RewoundIsFlipped(m, s);
  }
}

=== FILE: sessions.dfy ===
/** Sequences of addShape/addMesh calls on one builder, and what add() and
    getNumChildShapes report afterwards. */
module Sessions {
  import opened Vectors
  import opened Meshes
  import opened CustomShape

  /** One accumulation call with its arguments. */
  datatype Call =
    | ShapeCall(shape: Shape, offset: Vec3)
    | MeshCall(mesh: Mesh, scale: Vec3, useHull: bool, centre: bool)

  /** The call is defined on a builder that add() has not sealed; a sealed
      builder refuses every call before reading its mesh. */
  predicate Admissible(engine: Engine, c: Call) {
    c.MeshCall? ==> MeshAdmissible(engine, c.mesh, c.scale, c.useHull, c.centre)
  }

  predicate AllAdmissible(engine: Engine, calls: seq<Call>) {
    forall i :: 0 <= i < |calls| ==> Admissible(engine, calls[i])
  }

  function Apply(b: Builder, engine: Engine, c: Call): Step
    requires !b.added ==> Admissible(engine, c)
  {
    match c
    case ShapeCall(shape, offset) => AddShape(b, shape, offset)
    case MeshCall(m, scale, useHull, centre) => AddMesh(b, engine, m, scale, useHull, centre)
  }

  /** The builder after the calls, in order, and how many of them returned true. */
  function Run(b: Builder, engine: Engine, calls: seq<Call>): (r: (Builder, nat))
    requires !b.added ==> AllAdmissible(engine, calls)
    ensures OnlyEntriesChanged(b, r.0)
    ensures Valid(b) ==> Valid(r.0) && |r.0.shapes| == |b.shapes| + r.1
    ensures r.1 <= |calls|
    decreases |calls|
  {
    if |calls| == 0 then (b, 0)
    else
      var step := Apply(b, engine, calls[0]);
      var (last, accepted) := Run(step.next, engine, calls[1..]);
      (last, accepted + if step.Accepted? then 1 else 0)
  }

  /** The calls an open builder accepts, read off the arguments alone: every
      addShape, and every addMesh on a triangle mesh. */
  function Acceptable(calls: seq<Call>): nat {
    if |calls| == 0 then 0
    else
      Acceptable(calls[1..])
        + if calls[0].ShapeCall? || calls[0].mesh.mode == Triangles then 1 else 0
  }

  /** On a builder that add() has not sealed, the calls accepted are exactly
      the acceptable ones, and the entries already there stay in place. */
  lemma {:induction false} RunOpen(b: Builder, engine: Engine, calls: seq<Call>)
    requires !b.added && Valid(b) && AllAdmissible(engine, calls)
    ensures Run(b, engine, calls).1 == Acceptable(calls)
    ensures Run(b, engine, calls).0.shapes[..|b.shapes|] == b.shapes
    ensures Run(b, engine, calls).0.centroids[..|b.centroids|] == b.centroids
    decreases |calls|
  {
    if |calls| > 0 {
      var step := Apply(b, engine, calls[0]);
      RunOpen(step.next, engine, calls[1..]);
      var last := Run(step.next, engine, calls[1..]).0;
      assert last.shapes[..|b.shapes|] == last.shapes[..|step.next.shapes|][..|b.shapes|];
      assert last.centroids[..|b.centroids|] == last.centroids[..|step.next.centroids|][..|b.centroids|];
    }
  }

  /** Once add() has run, every call is refused and nothing changes. */
  lemma {:induction false} RunSealed(b: Builder, engine: Engine, calls: seq<Call>)
    requires b.added
    ensures Run(b, engine, calls) == (b, 0)
    decreases |calls|
  {
    if |calls| > 0 {
      RunSealed(b, engine, calls[1..]);
    }
  }

  /** A builder made by create() alone, then any calls, then add():
      getNumChildShapes reports 0 before add() and the number of calls that
      returned true after it; further calls change neither the count nor the
      centroid. */
  lemma ChildCountAfterAdd(world: nat, start: Transform, mass: real,
                           engine: Engine, calls: seq<Call>, later: seq<Call>)
    requires AllAdmissible(engine, calls)
    ensures var built := Run(Create(New(), world, start, mass), engine, calls);
            && GetNumChildShapes(built.0) == 0
            && GetNumChildShapes(Add(built.0)) == built.1 == Acceptable(calls)
            && Run(Add(built.0), engine, later) == (Add(built.0), 0)
  {
    var b := Create(New(), world, start, mass);
    RunOpen(b, engine, calls);
    var built := Run(b, engine, calls);
    RunSealed(Add(built.0), engine, later);
  }
}

=== FILE: vectors.dfy ===
/** Real-valued 3-vectors, standing in for both ofVec3f and btVector3.
    Coordinates are exact reals: IEEE float rounding is not modelled. */
module Vectors {

  datatype Vec3 = Vec3(x: real, y: real, z: real)

  const Zero: Vec3 := Vec3(0.0, 0.0, 0.0)

  function Plus(a: Vec3, b: Vec3): Vec3 {
    Vec3(a.x + b.x, a.y + b.y, a.z + b.z)
  }

  function Minus(a: Vec3, b: Vec3): Vec3 {
    Vec3(a.x - b.x, a.y - b.y, a.z - b.z)
  }

  function Neg(a: Vec3): Vec3 {
    Vec3(-a.x, -a.y, -a.z)
  }

  /** Component-wise product, btVector3's `operator*=` with a vector. */
  function Times(a: Vec3, s: Vec3): Vec3 {
    Vec3(a.x * s.x, a.y * s.y, a.z * s.z)
  }

  function ScaleBy(k: real, a: Vec3): Vec3 {
    Vec3(k * a.x, k * a.y, k * a.z)
  }

  /** Division by a scalar, `operator/=` with a float. */
  function DivBy(a: Vec3, d: real): Vec3
    requires d != 0.0
  {
    Vec3(a.x / d, a.y / d, a.z / d)
  }

  function Cross(a: Vec3, b: Vec3): Vec3 {
    Vec3(a.y * b.z - a.z * b.y, a.z * b.x - a.x * b.z, a.x * b.y - a.y * b.x)
  }

  /** The sum of a sequence of vectors, accumulated front to back as the
      source's `+=` loops do. */
  function Sum(s: seq<Vec3>): Vec3 {
    if |s| == 0 then Zero else Plus(Sum(s[..|s| - 1]), s[|s| - 1])
  }

  /** The unweighted arithmetic mean of a non-empty sequence of vectors. */
  function Mean(s: seq<Vec3>): (m: Vec3)
    requires |s| > 0
    ensures ScaleBy(|s| as real, m) == Sum(s)
  {
    DivBy(Sum(s), |s| as real)
  }

  /** Every element of `s` translated by `-c`. */
  function ShiftAll(s: seq<Vec3>, c: Vec3): (r: seq<Vec3>)
    ensures |r| == |s|
    ensures forall i :: 0 <= i < |s| ==> r[i] == Minus(s[i], c)
  {
    seq(|s|, i requires 0 <= i < |s| => Minus(s[i], c))
  }

  lemma SumAppend(s: seq<Vec3>, v: Vec3)
    ensures Sum(s + [v]) == Plus(Sum(s), v)
  {
    assert (s + [v])[..|s|] == s;
  }

  lemma SumPrefixStep(s: seq<Vec3>, k: nat)
    requires k < |s|
    ensures Sum(s[..k + 1]) == Plus(Sum(s[..k]), s[k])
  {
    assert s[..k + 1][..k] == s[..k];
  }

  lemma ScaleStep(k: real, c: Vec3)
    ensures ScaleBy(k + 1.0, c) == Plus(ScaleBy(k, c), c)
  {
  }

  /** Shifting every element by `c` shifts the sum by `|s|` copies of `c`. */
  lemma {:induction false} SumShiftAll(s: seq<Vec3>, c: Vec3)
    ensures Sum(ShiftAll(s, c)) == Minus(Sum(s), ScaleBy(|s| as real, c))
  {
    if |s| > 0 {
      var n := |s| - 1;
      var init := s[..n];
      var shifted := ShiftAll(s, c);
      SumShiftAll(init, c);
      assert shifted[..n] == ShiftAll(init, c);
      assert Sum(shifted) == Plus(Sum(ShiftAll(init, c)), Minus(s[n], c));
      ScaleStep(n as real, c);
      assert Sum(s) == Plus(Sum(init), s[n]);
    }
  }

  /** Centring a non-empty sequence on its mean leaves a sequence whose sum,
      and hence whose mean, is zero. */
  lemma CentredSumIsZero(s: seq<Vec3>)
    requires |s| > 0
    ensures Sum(ShiftAll(s, Mean(s))) == Zero
    ensures Mean(ShiftAll(s, Mean(s))) == Zero
  {
    var m := Mean(s);
    SumShiftAll(s, m);
    assert Sum(ShiftAll(s, m)) == Minus(Sum(s), Sum(s));
  }

  /** Summation distributes over concatenation. */
  lemma {:induction false} SumConcat(a: seq<Vec3>, b: seq<Vec3>)
    ensures Sum(a + b) == Plus(Sum(a), Sum(b))
  {
    if |b| > 0 {
      var b' := b[..|b| - 1];
      SumConcat(a, b');
      assert (a + b)[..|a + b| - 1] == a + b';
      assert (a + b)[|a + b| - 1] == b[|b| - 1];
    } else {
      assert a + b == a;
    }
  }
}
